=== FILE: README.md ===
# Redmine dashboard: issue card helpers and board permissions

This project models two parts of the Redmine dashboard plugin in Dafny and
proves properties of them.

**The Issue patch.** `rdb_id` is the identifier shown on a card. It is the
`issue_id` if the issue responds to it. Otherwise it is
abbreviation-dash-id when the project has an abbreviation present, and
hash-id if not. The value is memoised. `rdb_css_classes` is the list of
class tokens a card is rendered with. The host's predicates (`closed?`,
`overdue?`, `child?`, `leaf?`, `is_private?`) and the viewing user's
`logged?` and groups are plain inputs. The identifier's partner is a
decoder; the proof shows it recovers the format and every part of the
identifier from the text. The class string's partner is a reference
definition: the names of the tokens whose condition holds, in their fixed
order. The proof shows the string, read as a space-separated word list, is
exactly that list.

**The board permission API.** Its rules are given by the controller's
examples. It is modelled as a state machine over a store of permission
records: `index`, `show`, `search`, `create`, `update` (of the role) and
`destroy`. Each request names the actor explicitly.

- Only a user holding ADMIN on the board gets an answer. Anonymous and
  other users get "not found", and the store is left unchanged.
- `create` reports every validation failure together: principal
  `required`, principal `already_taken`, `invalid_role`.
- An administrator can neither edit nor delete their own record.

The proofs show:

- every request keeps the store's invariant, so no principal ever holds two
  records on one board;
- an administrator's own requests never take away their own rights;
- update and destroy touch exactly the record they name.

The fixture in `scenarios.dfy` replays the examples: user 2 is ADMIN,
user 3 has EDIT, and the directory holds seven users.

Roles are accepted ignoring ASCII letter case and stored as sent. The
examples show an ADMIN record as `ADMIN`
(spec/plugin/controllers/rdb/permissions_controller_spec.rb:84), and they
expect `read` to be stored as `read` (:218-223).

Files:

- `results.dfy`: `Option` and `Result`.
- `text.dfy`: ASCII whitespace, case mapping, substring search and word
  splitting.
- `decimal.dfy`: decimal rendering of ids.
- `issue_patch.dfy`: `rdb_id` and `rdb_css_classes`.
- `roles.dfy`, `principals.dfy`, `permission_store.dfy`,
  `permissions_controller.dfy`: the permission API.
- `scenarios.dfy`: the controller examples on their fixture.

## Model

| member | source | states |
|---|---|---|
| IssuePatch.RdbIdDecodes | lib/rdb/patches/issue.rb:3-13 | Decoding the identifier text recovers the branch that built it and its parts: the `issue_id` (nil giving the empty text); the abbreviation and id; or the id alone. |
| IssuePatch.RdbIdInjective | lib/rdb/patches/issue.rb:5-11 | Two issues with the same identifier text have the same format, and the same `issue_id`, or abbreviation and id, or id. |
| IssuePatch.IssueIdWins | lib/rdb/patches/issue.rb:5-6 | With an `issue_id` the identifier is that number's decimal text, whatever the project's abbreviation is. |
| IssuePatch.MemoIsFresh | lib/rdb/patches/issue.rb:4 | With an empty cache, or one holding the issue's own identifier, the memoised `rdb_id` equals a fresh computation. The cache it leaves yields that same value on the next call. |
| IssuePatch.MemoIgnoresIssue | lib/rdb/patches/issue.rb:4 | Once a text is cached it is returned whatever the issue now holds: an identifier cached for one issue state is not the fresh identifier of a state whose identifier differs. |
| Decimal.ValueOfShow | lib/rdb/patches/issue.rb:8-10 | The interpolated decimal text of an id is all digits and reads back as the same id. |
| IssuePatch.CssClassesIsActiveTokens | lib/rdb/patches/issue.rb:15-28 | The appended string equals the space-prefixed names of the applying tokens in the fixed order: closed, overdue, child, parent, private, created-by-me, assigned-to-me, assigned-to-my-group. |
| IssuePatch.ClassListIsActiveTokens | lib/rdb/patches/issue.rb:15-28 | Read as a whitespace-separated class list, the result is exactly the names of the applying tokens, in order. |
| IssuePatch.ActiveTokensOrdered | lib/rdb/patches/issue.rb:17-26 | A token is listed exactly when its condition holds, and listed tokens come in strictly increasing position. |
| IssuePatch.TokenPresentIff | lib/rdb/patches/issue.rb:17-25 | Each class name is present exactly when its condition holds. `parent` means not a leaf. The three user tokens also need a logged-in viewer. |
| IssuePatch.ClassListHasNoDuplicates | lib/rdb/patches/issue.rb:16-27 | No class name appears twice in the list. |
| IssuePatch.AnonymousViewerGetsNoUserTokens | lib/rdb/patches/issue.rb:22-26 | A viewer who is not logged in never sees created-by-me, assigned-to-me or assigned-to-my-group. |
| IssuePatch.EmptyIffNothingApplies | lib/rdb/patches/issue.rb:16-27 | The string is empty exactly when no condition holds, and otherwise starts with a space. |
| IssuePatch.AnyGroupIs | lib/rdb/patches/issue.rb:25 | `any?` over the viewer's groups is true exactly when some group id equals the assignee id. |
| Roles.Parse | spec/plugin/controllers/rdb/permissions_controller_spec.rb:211-223 | A text is a role exactly when its upper-cased form is READ, EDIT or ADMIN; anything else, such as MASTER_OF_DESASTER, is not. |
| Roles.ParseToken | spec/plugin/controllers/rdb/permissions_controller_spec.rb:218-222 | Each role's token and its lower-case form both read as that role. |
| Roles.ParseIgnoresCase | spec/plugin/controllers/rdb/permissions_controller_spec.rb:218-223 | Texts that differ only in letter case read as the same role. |
| Principals.ResolveIff | spec/plugin/controllers/rdb/permissions_controller_spec.rb:153-184 | A `{type, id}` reference resolves to a principal exactly when it carries that principal's type tag and id and the principal is known. |
| Principals.UnsupportedTypeUnresolved | spec/plugin/controllers/rdb/permissions_controller_spec.rb:179-184 | A type other than user or group (such as project) never resolves. |
| PermissionStore.InsertPreservesValid | spec/plugin/controllers/rdb/permissions_controller_spec.rb:159-177 | Adding a record for a principal with no record on the board, with a valid role, keeps ids increasing and one record per principal and board. |
| PermissionStore.WithoutRemovesExactly | spec/plugin/controllers/rdb/permissions_controller_spec.rb:253-258 | In a valid store, removing a record removes that id and keeps every other record. |
| PermissionStore.AtMostOnePerPrincipal | spec/plugin/controllers/rdb/permissions_controller_spec.rb:172-177 | In a valid store, two records for the same principal on the same board are the same record. |
| PermissionsController.Index | spec/plugin/controllers/rdb/permissions_controller_spec.rb:26-53 | Non-administrators get not found. An administrator gets exactly the board's records, in increasing id order when the store is valid. |
| PermissionsController.Show | spec/plugin/controllers/rdb/permissions_controller_spec.rb:56-94 | Succeeds exactly for an administrator naming a record of the board, and returns that record. Every failure is not found. |
| PermissionsController.Search | spec/plugin/controllers/rdb/permissions_controller_spec.rb:96-134 | Non-administrators get not found. An administrator gets exactly the directory's principals with no record on the board whose name contains the query, ignoring case. |
| PermissionsController.SearchCount | spec/plugin/controllers/rdb/permissions_controller_spec.rb:118-132 | An administrator's search lists each offered principal exactly as often as it occurs in the directory, and lists nothing else. This is the count the examples check with `size` and `match_array`. |
| PermissionsController.SearchWithEmptyQuery | spec/plugin/controllers/rdb/permissions_controller_spec.rb:97-124 | With an empty query, every principal without a record on the board is offered. |
| PermissionsController.Create | spec/plugin/controllers/rdb/permissions_controller_spec.rb:136-186 | Succeeds exactly for an administrator with a resolvable principal that has no record on the board and a valid role. Success appends one record holding the role as sent. Otherwise it reports `required` iff the principal does not resolve, `already_taken` iff it is held, and `invalid_role` iff the role is invalid. |
| PermissionsController.CreateAddsOneFreshRecord | spec/plugin/controllers/rdb/permissions_controller_spec.rb:159-166 | A successful create adds exactly one record, last, with an id no earlier record carries. |
| PermissionsController.Update | spec/plugin/controllers/rdb/permissions_controller_spec.rb:188-234 | Not found for a non-administrator or a missing record. The actor's own record gives cannot_edit_own_permission. A bad role gives invalid_role only. Success sets the named record's role as sent, keeps its principal, returns the record as stored, and never touches the actor's own record. |
| PermissionsController.UpdateChangesOnlyThatRole | spec/plugin/controllers/rdb/permissions_controller_spec.rb:218-223 | In a valid store, a successful update changes the role of the record with that id and nothing else. |
| PermissionsController.Destroy | spec/plugin/controllers/rdb/permissions_controller_spec.rb:236-267 | Not found for a non-administrator or a missing record. For an administrator and a record of the board, the request fails exactly when the record is the actor's own, and then with cannot_delete_own_permission. Success removes one record. |
| PermissionsController.DestroyRemovesExactly | spec/plugin/controllers/rdb/permissions_controller_spec.rb:253-258 | In a valid store, a successful destroy removes the record with that id and keeps all others. |
| PermissionsController.Handle | spec/plugin/controllers/rdb/permissions_controller_spec.rb:30-40 | Any failed request leaves the store as it was, and so do list, show and search. Any request from a non-administrator is answered not found. |
| PermissionsController.HandlePreservesValid | spec/plugin/controllers/rdb/permissions_controller_spec.rb:172-177 | Every request keeps the store's invariant: increasing ids, valid roles, and at most one record per principal and board. |
| PermissionsController.OwnRecordsUntouched | spec/plugin/controllers/rdb/permissions_controller_spec.rb:225-231 | No request by an actor changes or removes any of the actor's own records, on any board. |
| PermissionsController.AdminKeepsOwnRights | spec/plugin/controllers/rdb/permissions_controller_spec.rb:260-266 | An administrator's own requests never take away their administrator rights on any board. |
| PermissionsController.RunPreservesValid | spec/plugin/controllers/rdb/permissions_controller_spec.rb:172-177 | Any sequence of requests from a valid store ends in a valid store. |
| PermissionsController.ReachableStoresAreValid | spec/plugin/controllers/rdb/permissions_controller_spec.rb:172-177 | From the empty store, no sequence of requests produces two records for one principal on one board, or a stored role that is not a role. |
| Scenarios.OnlyUserTwoIsAdmin | spec/plugin/controllers/rdb/permissions_controller_spec.rb:14-22 | On the fixture, user 2 administers the board; anonymous and user 3 do not. |
| Scenarios.OutsidersAreTurnedAway | spec/plugin/controllers/rdb/permissions_controller_spec.rb:30-40 | On the fixture, every request by anonymous or by user 3 is answered not found and changes nothing. |
| Scenarios.IndexListsBothRecords | spec/plugin/controllers/rdb/permissions_controller_spec.rb:45-51 | The administrator's index lists the two records, the ADMIN record first. |
| Scenarios.ShowReturnsTheRecord | spec/plugin/controllers/rdb/permissions_controller_spec.rb:76-91 | Showing record 1 returns the ADMIN record of user 2. |
| Scenarios.SearchWithoutQuery | spec/plugin/controllers/rdb/permissions_controller_spec.rb:118-124 | With no query, the directory's users other than users 2 and 3 are offered. |
| Scenarios.SearchForLop | spec/plugin/controllers/rdb/permissions_controller_spec.rb:126-132 | The query "lop" offers Dave2 Lopper2 and no one else. |
| Scenarios.CreateGrantsRead | spec/plugin/controllers/rdb/permissions_controller_spec.rb:158-170 | Granting READ to user 1 appends a record with id 3. |
| Scenarios.CreateDuplicateIsTaken | spec/plugin/controllers/rdb/permissions_controller_spec.rb:172-177 | A second record for user 1 fails with `already_taken` only. |
| Scenarios.CreateWithProjectIsRequired | spec/plugin/controllers/rdb/permissions_controller_spec.rb:179-184 | A principal of type project fails with `required` only. |
| Scenarios.UpdateWithUnknownRoleIsInvalid | spec/plugin/controllers/rdb/permissions_controller_spec.rb:211-216 | MASTER_OF_DESASTER fails with `invalid_role` only. |
| Scenarios.UpdateKeepsLowerCaseRole | spec/plugin/controllers/rdb/permissions_controller_spec.rb:218-223 | Updating user 3's record to `read` stores `read`. |
| Scenarios.UpdateOwnIsRefused | spec/plugin/controllers/rdb/permissions_controller_spec.rb:225-231 | The administrator updating their own record gets cannot_edit_own_permission. |
| Scenarios.DestroyRemovesTheRecord | spec/plugin/controllers/rdb/permissions_controller_spec.rb:253-258 | Destroying record 2 leaves only the ADMIN record. |
| Scenarios.DestroyOwnIsRefused | spec/plugin/controllers/rdb/permissions_controller_spec.rb:260-266 | The administrator destroying their own record gets cannot_delete_own_permission. |

## Left out

- HTTP and JSON: status codes, empty bodies and error bodies become `Result` errors and `Reply` values. A record's JSON form, including the principal's name and Gravatar avatar URL, is not modelled.
- The controller's own source is not part of this model. Its behaviour is taken from the controller examples, so several details are modelling choices:
  - administrator rights come only from a user record whose role reads as ADMIN, not from a group's record;
  - `create` lists the principal error before the role error;
  - `update` checks the own-record guard before the role;
  - roles are accepted ignoring letter case and stored as sent, without normalisation.
- PermissionsController.Search: the order of the results is the directory's order. The host's ordering and paging of principals are not modelled.
- Scenarios.SearchWithoutQuery: it is stated as membership only. `PermissionsController.SearchCount` states that each offered account is listed as often as it occurs in the directory, so the examples' result size (five) follows once the seven accounts are distinct; that last step is not proved.
- Scenarios.SearchForLop: it is stated as membership only, like SearchWithoutQuery; the result size (one) is not proved.
- The user fixtures are reduced to seven users. The examples name five of them ('Redmine Admin', 'Robert Hill', 'Dave2 Lopper2', 'Anonymous', 'Some One') and refer to users 1-3 only by id. Two further assumptions come from the host's standard user fixture:
  - users 2 and 3 are 'John Smith' and 'Dave Lopper';
  - the five named users have ids 1 and 4-7.
  Their logins, mail addresses, statuses and group memberships are not modelled.
- A missing `role` parameter on update is not modelled separately: it is a text that is not a role.
- Letter case and whitespace are ASCII only: role matching ignores ASCII letter case only, a modelling choice because the role-matching code is not part of this model. `present?` and `blank?` treat ASCII whitespace only.
- A nil issue id and a nil project: `id` is a natural number and a project is always present, so `rdb_id` on an unsaved issue is not modelled. A nil `issue_id` is modelled, and gives the empty text.
- IssuePatch.MemoRdbId: the memoised value is never invalidated, as in the source, so an identifier cached before the issue changes stays stale. `IssuePatch.MemoIgnoresIssue` states this; freshness is claimed only for a coherent cache (`IssuePatch.MemoIsFresh`).
- The host's `User.current` default argument, `respond_to?` introspection and the `Issue.send :include` patching are inputs or left out. The viewer is passed explicitly.
- Concurrency and database constraints: requests are handled one at a time.

=== FILE: decimal.dfy ===
/** Decimal rendering of natural numbers (Ruby's `Integer#to_s`) and its inverse. */
module Decimal {

  predicate IsDigit(c: char) {
    '0' <= c <= '9'
  }

  predicate AllDigits(s: string) {
    forall k :: 0 <= k < |s| ==> IsDigit(s[k])
  }

  function DigitChar(d: nat): (c: char)
    requires d < 10
    ensures IsDigit(c)
  {
    ('0' as int + d) as char
  }

  function DigitValue(c: char): (d: nat)
    requires IsDigit(c)
    ensures d < 10 && DigitChar(d) == c
  {
    c as int - '0' as int
  }

  /** The canonical decimal text of `n`: digits only, never empty, and a
      leading zero only for zero itself. */
  function Show(n: nat): (s: string)
    ensures |s| > 0 && AllDigits(s)
    ensures s[0] == '0' <==> n == 0
    ensures |s| == 1 <==> n < 10
    decreases n
  {
    if n < 10 then [DigitChar(n)] else Show(n / 10) + [DigitChar(n % 10)]
  }

  /** The number a string of digits denotes (most significant digit first). */
  function Value(s: string): nat
    requires AllDigits(s)
    decreases |s|
  {
    if s == [] then 0 else Value(s[..|s| - 1]) * 10 + DigitValue(s[|s| - 1])
  }

  /** Reading back the rendered text gives the number. */
  lemma {:induction false} ValueOfShow(n: nat)
    ensures Value(Show(n)) == n
    decreases n
  {
    if n < 10 {
    } else {
      var s := Show(n);
      assert s[..|s| - 1] == Show(n / 10);
      ValueOfShow(n / 10);
    }
  }
}

=== FILE: issue_patch.dfy ===
/** The display helpers the dashboard plugin mixes into the host's Issue:
    `rdb_id`, the identifier shown on a card, and `rdb_css_classes`, the
    class list a card is rendered with.  The host's own predicates
    (`closed?`, `overdue?`, `child?`, `leaf?`, `is_private?`) and the
    viewing user's `logged?` and groups are plain inputs here. */
module IssuePatch {
  import opened Results
  import opened Text
  import opened Decimal

  /** Whether the receiver answers `issue_id` and, if so, what it holds
      (`nil` is `None`). */
  datatype IssueIdAttr = NoIssueId | IssueId(value: Option<nat>)

  /** The issue's project, reduced to the plugin's abbreviation setting. */
  datatype Project = Project(abbreviation: Option<string>)

  datatype Issue = Issue(
    id: nat,
    issueIdAttr: IssueIdAttr,
    project: Project,
    closed: bool,
    overdue: bool,
    child: bool,
    leaf: bool,
    isPrivate: bool,
    authorId: Option<nat>,
    assignedToId: Option<nat>)

  /** The user a card is rendered for; `groupIds` are the ids of the user's groups. */
  datatype Viewer = Viewer(id: nat, logged: bool, groupIds: seq<nat>)

  // ---------------------------------------------------------------------
  // rdb_id
  // ---------------------------------------------------------------------

  /** Ruby's `present?`: not nil and not blank. */
  predicate IsPresent(a: Option<string>) {
    a.Some? && !IsBlank(a.value)
  }

  /** Ruby's `to_s` on an integer that may be nil. */
  function NatToS(v: Option<nat>): string {
    match v
    case None => ""
    case Some(n) => Show(n)
  }

  /** The identifier text of an issue, computed afresh. */
  function RdbId(i: Issue): string {
    match i.issueIdAttr
    case IssueId(v) => NatToS(v)
    case NoIssueId =>
      if IsPresent(i.project.abbreviation) then i.project.abbreviation.value + "-" + Show(i.id)
      else "#" + Show(i.id)
  }

  /** The three identifier formats, as a reader of the text tells them apart. */
  datatype IdForm =
    | Referenced(issueId: Option<nat>)
    | Abbreviated(abbreviation: string, id: nat)
    | Numbered(id: nat)
    | Unrecognised

  /** Which format an issue's identifier is meant to have, and its parts. */
  function FormOf(i: Issue): IdForm {
    match i.issueIdAttr
    case IssueId(v) => Referenced(v)
    case NoIssueId =>
      if IsPresent(i.project.abbreviation) then Abbreviated(i.project.abbreviation.value, i.id)
      else Numbered(i.id)
  }

  /** Position of the last occurrence of `c` in `s`. */
  function LastIndexOf(s: string, c: char): (r: Option<nat>)
    ensures r.Some? ==> r.value < |s| && s[r.value] == c
    ensures r.Some? ==> forall k :: r.value < k < |s| ==> s[k] != c
    ensures r.None? ==> forall k :: 0 <= k < |s| ==> s[k] != c
    decreases |s|
  {
    if s == [] then None
    else if s[|s| - 1] == c then Some(|s| - 1)
    else LastIndexOf(s[..|s| - 1], c)
  }

  /** Reads an identifier text back into its format and parts. An
      abbreviation may itself contain '-', so the number is what follows
      the last '-'. */
  function Decode(s: string): IdForm {
    if AllDigits(s) then
      (if s == [] then Referenced(None) else Referenced(Some(Value(s))))
    else if s[0] == '#' && |s| > 1 && AllDigits(s[1..]) then
      Numbered(Value(s[1..]))
    else
      match LastIndexOf(s, '-')
      case Some(k) =>
        if 0 < k && k + 1 < |s| && AllDigits(s[k + 1..]) then Abbreviated(s[..k], Value(s[k + 1..]))
        else Unrecognised
      case None => Unrecognised
  }

  /** The '-' before a run of digits is the last '-' of the text. */
  lemma LastDashBeforeDigits(a: string, d: string)
    requires AllDigits(d)
    ensures LastIndexOf(a + "-" + d, '-') == Some(|a|)
  {
    var head := a + "-";
    var s := head + d;
    assert |head| == |a| + 1 && head[|a|] == '-';
    assert s[|a|] == '-';
    forall k | |head| <= k < |s|
      ensures s[k] != '-'
    {
      assert s[k] == d[k - |head|];
      assert IsDigit(d[k - |head|]);
    }
    var r := LastIndexOf(s, '-');
    assert r.Some?;
    assert r.value >= |a|;
    assert r.value <= |a|;
  }

  /** Abbreviation-dash-number reads back as its abbreviation and number,
      even when the abbreviation itself contains '-' or starts with '#'. */
  lemma DecodeAbbreviated(a: string, n: nat)
    requires !IsBlank(a)
    ensures Decode(a + "-" + Show(n)) == Abbreviated(a, n)
  {
    var d := Show(n);
    ValueOfShow(n);
    LastDashBeforeDigits(a, d);
    var s := a + "-" + d;
    assert !AllDigits(s) by {
      assert !IsDigit(s[|a|]);
    }
    assert !AllDigits(s[1..]) by {
      assert s[1..][|a| - 1] == '-';
    }
    assert s[|a| + 1..] == d;
    assert s[..|a|] == a;
  }

  lemma DecodeNumbered(n: nat)
    ensures Decode("#" + Show(n)) == Numbered(n)
  {
    var s := "#" + Show(n);
    ValueOfShow(n);
    assert !IsDigit(s[0]);
    assert s[1..] == Show(n);
  }

  /** The identifier text determines the format and all of its parts: an
      `issue_id` wins over the project, a present abbreviation gives
      abbreviation-dash-id, and otherwise it is hash-id. */
  lemma RdbIdDecodes(i: Issue)
    ensures Decode(RdbId(i)) == FormOf(i)
  {
    match i.issueIdAttr
    case IssueId(v) =>
      if v.Some? {
        ValueOfShow(v.value);
      }
    case NoIssueId =>
      if IsPresent(i.project.abbreviation) {
        DecodeAbbreviated(i.project.abbreviation.value, i.id);
      } else {
        DecodeNumbered(i.id);
      }
  }

  /** Two issues whose identifier texts agree have the same format and parts. */
  lemma RdbIdInjective(i: Issue, j: Issue)
    requires RdbId(i) == RdbId(j)
    ensures FormOf(i) == FormOf(j)
  {
    RdbIdDecodes(i);
    RdbIdDecodes(j);
  }

  /** With an `issue_id` the identifier is that number's text, whatever the
      project's abbreviation is. */
  lemma IssueIdWins(i: Issue, p: Project, n: nat)
    requires i.issueIdAttr == IssueId(Some(n))
    ensures RdbId(i) == RdbId(i.(project := p))
    ensures AllDigits(RdbId(i)) && Value(RdbId(i)) == n
  {
    ValueOfShow(n);
  }

  /** `@rdb_id ||= ...`: a cached text is returned as is; otherwise the text
      is computed and cached. A Ruby string is never falsy, so once cached
      the text is never recomputed. */
  function MemoRdbId(cache: Option<string>, i: Issue): (r: (string, Option<string>))
    ensures r.1 == Some(r.0)
    ensures cache.Some? ==> r == (cache.value, cache)
    ensures cache.None? ==> r == (RdbId(i), Some(RdbId(i)))
  {
    match cache
    case Some(v) => (v, cache)
    case None => var v := RdbId(i); (v, Some(v))
  }

  /** A cache that is empty or holds the issue's own identifier yields the
      freshly computed identifier, and leaves a cache that yields it again. */
  lemma MemoIsFresh(cache: Option<string>, i: Issue)
    requires cache == None || cache == Some(RdbId(i))
    ensures var (v, c) := MemoRdbId(cache, i);
      v == RdbId(i) && c == Some(RdbId(i)) && MemoRdbId(c, i) == (v, c)
  {
  }

  /** Once cached, the identifier no longer depends on the issue: changing
      the issue's fields afterwards leaves the stale text in place. */
  lemma MemoIgnoresIssue(v: string, i: Issue, j: Issue)
    ensures MemoRdbId(Some(v), i) == MemoRdbId(Some(v), j)
    ensures RdbId(i) != RdbId(j) ==> MemoRdbId(Some(RdbId(i)), j).0 != RdbId(j)
  {
  }

  // ---------------------------------------------------------------------
  // rdb_css_classes
  // ---------------------------------------------------------------------

  datatype CssToken =
    | Closed | Overdue | Child | Parent | Private
    | CreatedByMe | AssignedToMe | AssignedToMyGroup

  /** The class name of a token. */
  function ClassName(t: CssToken): (s: string)
    ensures |s| > 0
  {
    match t
    case Closed => "closed"
    case Overdue => "overdue"
    case Child => "child"
    case Parent => "parent"
    case Private => "private"
    case CreatedByMe => "created-by-me"
    case AssignedToMe => "assigned-to-me"
    case AssignedToMyGroup => "assigned-to-my-group"
  }

  /** The text the helper appends for a token: a space and the class name. */
  function Literal(t: CssToken): (s: string)
    ensures |s| > 1 && s[0] == ' ' && s[1..] == ClassName(t)
  {
    " " + ClassName(t)
  }

  /** Distinct tokens have distinct class names; the length and first letter
      of the name already tell them apart. */
  lemma ClassNameInjective(t1: CssToken, t2: CssToken)
    ensures ClassName(t1) == ClassName(t2) ==> t1 == t2
  {
    if ClassName(t1) == ClassName(t2) {
      assert |ClassName(t1)| == |ClassName(t2)|;
      assert ClassName(t1)[0] == ClassName(t2)[0];
    }
  }

  /** The fixed order in which the tokens are emitted. */
  const TokenOrder: seq<CssToken> :=
    [Closed, Overdue, Child, Parent, Private, CreatedByMe, AssignedToMe, AssignedToMyGroup]

  /** The position of a token in the fixed order. */
  function Rank(t: CssToken): nat {
    match t
    case Closed => 0
    case Overdue => 1
    case Child => 2
    case Parent => 3
    case Private => 4
    case CreatedByMe => 5
    case AssignedToMe => 6
    case AssignedToMyGroup => 7
  }

  predicate InSomeGroup(u: Viewer, id: Option<nat>) {
    exists k :: 0 <= k < |u.groupIds| && Some(u.groupIds[k]) == id
  }

  /** When a token belongs on the card, stated token by token. */
  predicate Applies(t: CssToken, i: Issue, u: Viewer) {
    match t
    case Closed => i.closed
    case Overdue => i.overdue
    case Child => i.child
    case Parent => !i.leaf
    case Private => i.isPrivate
    case CreatedByMe => u.logged && i.authorId == Some(u.id)
    case AssignedToMe => u.logged && i.assignedToId == Some(u.id)
    case AssignedToMyGroup => u.logged && InSomeGroup(u, i.assignedToId)
  }

  /** `user.groups.any? { |g| g.id == assigned_to_id }`, scanning left to right. */
  function AnyGroupIs(groupIds: seq<nat>, id: Option<nat>): (b: bool)
    ensures b <==> exists k :: 0 <= k < |groupIds| && Some(groupIds[k]) == id
    decreases |groupIds|
  {
    if groupIds == [] then false
    else Some(groupIds[0]) == id || AnyGroupIs(groupIds[1..], id)
  }

  /** `s << ' name' if cond`, for the token's literal. */
  function AppendIf(s: string, cond: bool, t: CssToken): string {
    if cond then s + Literal(t) else s
  }

  /** The class string, built the way the helper builds it: one guarded
      append per token, the user-relative ones only for a logged-in user. */
  function CssClasses(i: Issue, u: Viewer): string {
    var s := "";
    var s := AppendIf(s, i.closed, Closed);
    var s := AppendIf(s, i.overdue, Overdue);
    var s := AppendIf(s, i.child, Child);
    var s := AppendIf(s, !i.leaf, Parent);
    var s := AppendIf(s, i.isPrivate, Private);
    if u.logged then
      var s := AppendIf(s, i.authorId == Some(u.id), CreatedByMe);
      var s := AppendIf(s, i.assignedToId == Some(u.id), AssignedToMe);
      AppendIf(s, AnyGroupIs(u.groupIds, i.assignedToId), AssignedToMyGroup)
    else s
  }

  /** The tokens of `ts` that apply, in the order of `ts`. */
  function Select(ts: seq<CssToken>, i: Issue, u: Viewer): seq<CssToken> {
    if ts == [] then []
    else (if Applies(ts[0], i, u) then [ts[0]] else []) + Select(ts[1..], i, u)
  }

  /** The tokens that apply to an issue for a viewer, in emission order. */
  function ActiveTokens(i: Issue, u: Viewer): seq<CssToken> {
    Select(TokenOrder, i, u)
  }

  function Names(ts: seq<CssToken>): seq<string> {
    if ts == [] then [] else [ClassName(ts[0])] + Names(ts[1..])
  }

  lemma {:induction false} NamesAppend(a: seq<CssToken>, b: seq<CssToken>)
    ensures Names(a + b) == Names(a) + Names(b)
    decreases |a|
  {
    if a == [] {
      assert a + b == b;
    } else {
      assert (a + b)[0] == a[0];
      assert (a + b)[1..] == a[1..] + b;
      NamesAppend(a[1..], b);
    }
  }

  lemma {:induction false} SpaceJoinAppend(a: seq<string>, b: seq<string>)
    ensures SpaceJoin(a + b) == SpaceJoin(a) + SpaceJoin(b)
    decreases |a|
  {
    if a == [] {
      assert a + b == b;
    } else {
      assert (a + b)[0] == a[0];
      assert (a + b)[1..] == a[1..] + b;
      SpaceJoinAppend(a[1..], b);
    }
  }

  /** The text one token contributes: its literal, or nothing. */
  function Piece(t: CssToken, i: Issue, u: Viewer): string {
    if Applies(t, i, u) then Literal(t) else ""
  }

  /** The text a sequence of tokens contributes, token by token. */
  function Pieces(ts: seq<CssToken>, i: Issue, u: Viewer): string {
    if ts == [] then "" else Piece(ts[0], i, u) + Pieces(ts[1..], i, u)
  }

  lemma {:induction false} RenderedIsPieces(ts: seq<CssToken>, i: Issue, u: Viewer)
    ensures SpaceJoin(Names(Select(ts, i, u))) == Pieces(ts, i, u)
    decreases |ts|
  {
    if ts != [] {
      var head := if Applies(ts[0], i, u) then [ts[0]] else [];
      NamesAppend(head, Select(ts[1..], i, u));
      SpaceJoinAppend(Names(head), Names(Select(ts[1..], i, u)));
      if Applies(ts[0], i, u) {
        assert Names(head) == [ClassName(ts[0])];
        assert SpaceJoin([ClassName(ts[0])]) == " " + ClassName(ts[0]) + "";
      } else {
        assert Names(head) == [];
      }
      RenderedIsPieces(ts[1..], i, u);
    }
  }

  /** String concatenation regroups freely. */
  lemma ConcatAssoc(a: string, b: string, c: string)
    ensures a + (b + c) == (a + b) + c
  {
  }

  lemma {:induction false} PiecesSnoc(ts: seq<CssToken>, t: CssToken, i: Issue, u: Viewer)
    ensures Pieces(ts + [t], i, u) == Pieces(ts, i, u) + Piece(t, i, u)
    decreases |ts|
  {
    if ts == [] {
      assert ts + [t] == [t];
      assert [t][1..] == [];
    } else {
      assert (ts + [t])[0] == ts[0];
      assert (ts + [t])[1..] == ts[1..] + [t];
      PiecesSnoc(ts[1..], t, i, u);
      ConcatAssoc(Piece(ts[0], i, u), Pieces(ts[1..], i, u), Piece(t, i, u));
    }
  }

  /** A guarded append, on the token's own condition, onto the pieces of
      `ts` gives the pieces of `ts` followed by that token. */
  lemma AppendIfExtendsPieces(ts: seq<CssToken>, t: CssToken, cond: bool, i: Issue, u: Viewer)
    requires cond == Applies(t, i, u)
    ensures AppendIf(Pieces(ts, i, u), cond, t) == Pieces(ts + [t], i, u)
  {
    PiecesSnoc(ts, t, i, u);
  }

  /** The five appends that depend on the issue alone leave the pieces of
      the first five tokens of the fixed order. */
  lemma IssuePiecesUnfold(i: Issue, u: Viewer)
    ensures Pieces([Closed, Overdue, Child, Parent, Private], i, u)
         == AppendIf(AppendIf(AppendIf(AppendIf(AppendIf("", i.closed, Closed), i.overdue, Overdue),
              i.child, Child), !i.leaf, Parent), i.isPrivate, Private)
  {
    var q0: seq<CssToken> := [];
    var q1 := q0 + [Closed];
    var q2 := q1 + [Overdue];
    var q3 := q2 + [Child];
    var q4 := q3 + [Parent];
    var q5 := q4 + [Private];
    assert q5 == [Closed, Overdue, Child, Parent, Private];
    assert Pieces(q0, i, u) == "";
    AppendIfExtendsPieces(q0, Closed, i.closed, i, u);
    AppendIfExtendsPieces(q1, Overdue, i.overdue, i, u);
    AppendIfExtendsPieces(q2, Child, i.child, i, u);
    AppendIfExtendsPieces(q3, Parent, !i.leaf, i, u);
    AppendIfExtendsPieces(q4, Private, i.isPrivate, i, u);
  }

  /** The helper's string is the pieces of the fixed order: its k-th
      guarded append leaves the pieces of the first k tokens. */
  lemma CssClassesIsPieces(i: Issue, u: Viewer)
    ensures CssClasses(i, u) == Pieces(TokenOrder, i, u)
  {
    var q5 := [Closed, Overdue, Child, Parent, Private];
    var q6 := q5 + [CreatedByMe];
    var q7 := q6 + [AssignedToMe];
    assert q7 + [AssignedToMyGroup] == TokenOrder;
    IssuePiecesUnfold(i, u);
    if u.logged {
      AppendIfExtendsPieces(q5, CreatedByMe, i.authorId == Some(u.id), i, u);
      AppendIfExtendsPieces(q6, AssignedToMe, i.assignedToId == Some(u.id), i, u);
      AppendIfExtendsPieces(q7, AssignedToMyGroup, AnyGroupIs(u.groupIds, i.assignedToId), i, u);
    } else {
      AppendIfExtendsPieces(q5, CreatedByMe, false, i, u);
      AppendIfExtendsPieces(q6, AssignedToMe, false, i, u);
      AppendIfExtendsPieces(q7, AssignedToMyGroup, false, i, u);
    }
  }

  /** The built string is the applying tokens, in the fixed order, each
      preceded by one space. */
  lemma CssClassesIsActiveTokens(i: Issue, u: Viewer)
    ensures CssClasses(i, u) == SpaceJoin(Names(ActiveTokens(i, u)))
  {
    CssClassesIsPieces(i, u);
    RenderedIsPieces(TokenOrder, i, u);
  }

  lemma {:induction false} SelectMembers(ts: seq<CssToken>, i: Issue, u: Viewer, t: CssToken)
    ensures t in Select(ts, i, u) <==> t in ts && Applies(t, i, u)
    decreases |ts|
  {
    if ts != [] {
      SelectMembers(ts[1..], i, u, t);
      assert ts == [ts[0]] + ts[1..];
    }
  }

  /** Tokens in strictly increasing position of the fixed order. */
  predicate RankSorted(ts: seq<CssToken>) {
    forall p, q :: 0 <= p < q < |ts| ==> Rank(ts[p]) < Rank(ts[q])
  }

  /** Every applying token after the head of a sorted sequence ranks above the head. */
  lemma SelectedRankAbove(ts: seq<CssToken>, i: Issue, u: Viewer)
    requires ts != [] && RankSorted(ts)
    ensures forall q :: 0 <= q < |Select(ts[1..], i, u)| ==> Rank(ts[0]) < Rank(Select(ts[1..], i, u)[q])
  {
    var rest := Select(ts[1..], i, u);
    forall q | 0 <= q < |rest|
      ensures Rank(ts[0]) < Rank(rest[q])
    {
      assert rest[q] in rest;
      SelectMembers(ts[1..], i, u, rest[q]);
      var k :| 0 <= k < |ts[1..]| && ts[1..][k] == rest[q];
      assert ts[k + 1] == rest[q];
    }
  }

  lemma ConsRankSorted(x: CssToken, rest: seq<CssToken>)
    requires RankSorted(rest)
    requires forall q :: 0 <= q < |rest| ==> Rank(x) < Rank(rest[q])
    ensures RankSorted([x] + rest)
  {
    var r := [x] + rest;
    forall p, q | 0 <= p < q < |r|
      ensures Rank(r[p]) < Rank(r[q])
    {
      assert r[q] == rest[q - 1];
      if p > 0 {
        assert r[p] == rest[p - 1];
      }
    }
  }

  lemma {:induction false} SelectKeepsOrder(ts: seq<CssToken>, i: Issue, u: Viewer)
    requires RankSorted(ts)
    ensures RankSorted(Select(ts, i, u))
    decreases |ts|
  {
    if ts != [] {
      assert RankSorted(ts[1..]) by {
        forall p, q | 0 <= p < q < |ts[1..]|
          ensures Rank(ts[1..][p]) < Rank(ts[1..][q])
        {
          assert ts[1..][p] == ts[p + 1] && ts[1..][q] == ts[q + 1];
        }
      }
      SelectKeepsOrder(ts[1..], i, u);
      var rest := Select(ts[1..], i, u);
      if Applies(ts[0], i, u) {
        SelectedRankAbove(ts, i, u);
        ConsRankSorted(ts[0], rest);
        assert Select(ts, i, u) == [ts[0]] + rest;
      } else {
        assert Select(ts, i, u) == rest;
      }
    }
  }

  /** Each token's rank is its position in the fixed order. */
  lemma RankIsPosition()
    ensures forall p :: 0 <= p < |TokenOrder| ==> Rank(TokenOrder[p]) == p
    ensures forall t :: Rank(t) < |TokenOrder| && TokenOrder[Rank(t)] == t
  {
  }

  lemma {:induction false} NamesIndex(ts: seq<CssToken>)
    ensures |Names(ts)| == |ts|
    ensures forall p :: 0 <= p < |ts| ==> Names(ts)[p] == ClassName(ts[p])
    decreases |ts|
  {
    if ts != [] {
      NamesIndex(ts[1..]);
      var head := ClassName(ts[0]);
      assert Names(ts) == [head] + Names(ts[1..]);
      forall p | 0 < p < |ts|
        ensures Names(ts)[p] == ClassName(ts[p])
      {
        assert Names(ts)[p] == Names(ts[1..])[p - 1];
        assert ts[1..][p - 1] == ts[p];
      }
    }
  }

  lemma ClassNameIsWord(t: CssToken)
    ensures IsWord(ClassName(t))
  {
    var s := ClassName(t);
    assert forall k :: 0 <= k < |s| ==> !IsSpace(s[k]);
  }

  lemma ClassNamesAreWords(ts: seq<CssToken>)
    ensures forall k :: 0 <= k < |Names(ts)| ==> IsWord(Names(ts)[k])
  {
    NamesIndex(ts);
    forall k | 0 <= k < |ts|
      ensures IsWord(ClassName(ts[k]))
    {
      ClassNameIsWord(ts[k]);
    }
  }

  /** Read as a class list, the string is the names of the applying tokens
      in the fixed order. */
  lemma ClassListIsActiveTokens(i: Issue, u: Viewer)
    ensures Words(CssClasses(i, u)) == Names(ActiveTokens(i, u))
  {
    CssClassesIsActiveTokens(i, u);
    ClassNamesAreWords(ActiveTokens(i, u));
    WordsOfSpaceJoin(Names(ActiveTokens(i, u)));
  }

  /** The applying tokens are exactly the tokens whose condition holds, and
      they come in strictly increasing position of the fixed order, so none
      comes twice. */
  lemma ActiveTokensOrdered(i: Issue, u: Viewer)
    ensures var ts := ActiveTokens(i, u);
      && (forall t :: t in ts <==> Applies(t, i, u))
      && (forall p, q :: 0 <= p < q < |ts| ==> Rank(ts[p]) < Rank(ts[q]))
  {
    RankIsPosition();
    assert RankSorted(TokenOrder);
    SelectKeepsOrder(TokenOrder, i, u);
    forall t
      ensures t in ActiveTokens(i, u) <==> Applies(t, i, u)
    {
      SelectMembers(TokenOrder, i, u, t);
      assert TokenOrder[Rank(t)] in TokenOrder;
    }
  }

  /** A token's name is in the class list exactly when its condition holds:
      `closed`, `overdue`, `child` and `private` follow their flags,
      `parent` marks an issue that is not a leaf, and the three
      user-relative tokens need a logged-in viewer. */
  lemma TokenPresentIff(i: Issue, u: Viewer, t: CssToken)
    ensures ClassName(t) in Words(CssClasses(i, u)) <==> Applies(t, i, u)
  {
    ClassListIsActiveTokens(i, u);
    ActiveTokensOrdered(i, u);
    var ts := ActiveTokens(i, u);
    NamesIndex(ts);
    if ClassName(t) in Names(ts) {
      var p :| 0 <= p < |Names(ts)| && Names(ts)[p] == ClassName(t);
      ClassNameInjective(ts[p], t);
    }
    if Applies(t, i, u) {
      var p :| 0 <= p < |ts| && ts[p] == t;
      assert Names(ts)[p] == ClassName(t);
    }
  }

  /** No class name appears twice in the class list. */
  lemma ClassListHasNoDuplicates(i: Issue, u: Viewer)
    ensures var ws := Words(CssClasses(i, u));
      forall p, q :: 0 <= p < q < |ws| ==> ws[p] != ws[q]
  {
    ClassListIsActiveTokens(i, u);
    ActiveTokensOrdered(i, u);
    var ts := ActiveTokens(i, u);
    NamesIndex(ts);
    forall p, q | 0 <= p < q < |ts|
      ensures ClassName(ts[p]) != ClassName(ts[q])
    {
      ClassNameInjective(ts[p], ts[q]);
    }
  }

  /** For a viewer who is not logged in, none of the user-relative tokens
      appears, whatever the author and assignee are. */
  lemma AnonymousViewerGetsNoUserTokens(i: Issue, u: Viewer)
    requires !u.logged
    ensures ClassName(CreatedByMe) !in Words(CssClasses(i, u))
    ensures ClassName(AssignedToMe) !in Words(CssClasses(i, u))
    ensures ClassName(AssignedToMyGroup) !in Words(CssClasses(i, u))
  {
    TokenPresentIff(i, u, CreatedByMe);
    TokenPresentIff(i, u, AssignedToMe);
    TokenPresentIff(i, u, AssignedToMyGroup);
  }

  /** The result is empty exactly when no condition holds, and otherwise
      begins with a space. */
  lemma EmptyIffNothingApplies(i: Issue, u: Viewer)
    ensures CssClasses(i, u) == "" <==> forall t :: !Applies(t, i, u)
    ensures CssClasses(i, u) != "" ==> CssClasses(i, u)[0] == ' '
  {
    CssClassesIsActiveTokens(i, u);
    ActiveTokensOrdered(i, u);
    var ts := ActiveTokens(i, u);
    if ts != [] {
      assert ts[0] in ts;
      assert SpaceJoin(Names(ts)) != "";
    }
  }
}

=== FILE: permission_store.dfy ===
/** The permission records of all boards: who holds which role on which
    board. Records are kept in creation order and ids are handed out in
    increasing order. */
module PermissionStore {
  import opened Results
  import opened Principals
  import Roles

  /** A role assignment; `role` is the text as it was given, which reads
      as a role in any letter case. */
  datatype Permission = Permission(id: nat, board: nat, principal: Principal, role: string)

  datatype Store = Store(records: seq<Permission>, nextId: nat)

  /** The store before any permission is granted. */
  const Empty: Store := Store([], 1)

  /** Two records for the same principal on the same board. */
  predicate SameSlot(p: Permission, q: Permission) {
    p.board == q.board && p.principal == q.principal
  }

  predicate IdsIncreasing(rs: seq<Permission>) {
    forall j, k :: 0 <= j < k < |rs| ==> rs[j].id < rs[k].id
  }

  /** The store's invariant: ids below the next id and increasing in
      creation order, every role text a role, and at most one record per
      board and principal. */
  predicate Valid(s: Store) {
    && (forall k :: 0 <= k < |s.records| ==> s.records[k].id < s.nextId)
    && (forall k :: 0 <= k < |s.records| ==> Roles.IsValid(s.records[k].role))
    && IdsIncreasing(s.records)
    && (forall j, k :: 0 <= j < k < |s.records| ==> !SameSlot(s.records[j], s.records[k]))
  }

  /** `p` already has a record on `board`. */
  predicate Holds(s: Store, board: nat, p: Principal) {
    exists k :: 0 <= k < |s.records| && s.records[k].board == board && s.records[k].principal == p
  }

  /** Position of the record with this id on this board. */
  function Find(rs: seq<Permission>, board: nat, id: nat): (r: Option<nat>)
    ensures r.Some? ==> r.value < |rs| && rs[r.value].id == id && rs[r.value].board == board
    ensures r.None? ==> forall k :: 0 <= k < |rs| ==> !(rs[k].id == id && rs[k].board == board)
    decreases |rs|
  {
    if rs == [] then None
    else if rs[0].id == id && rs[0].board == board then Some(0)
    else match Find(rs[1..], board, id)
      case Some(k) => Some(k + 1)
      case None => None
  }

  /** The records of one board, in store order. */
  function OnBoard(rs: seq<Permission>, board: nat): (r: seq<Permission>)
    ensures forall p :: p in r <==> p in rs && p.board == board
    ensures IdsIncreasing(rs) ==> IdsIncreasing(r)
    decreases |rs|
  {
    if rs == [] then []
    else if rs[0].board == board then [rs[0]] + OnBoard(rs[1..], board)
    else OnBoard(rs[1..], board)
  }

  /** Adds a record with the next id at the end. */
  function Insert(s: Store, board: nat, p: Principal, role: string): (r: (Store, Permission))
    ensures r.1.board == board && r.1.principal == p && r.1.role == role
    ensures r.0.records == s.records + [r.1]
  {
    var rec := Permission(s.nextId, board, p, role);
    (Store(s.records + [rec], s.nextId + 1), rec)
  }

  /** Replaces the role text of the record at position `k`. */
  function WithRole(s: Store, k: nat, role: string): (r: Store)
    requires k < |s.records|
    ensures |r.records| == |s.records| && r.nextId == s.nextId
    ensures r.records[k] == s.records[k].(role := role)
    ensures forall j :: 0 <= j < |s.records| && j != k ==> r.records[j] == s.records[j]
  {
    Store(s.records[k := s.records[k].(role := role)], s.nextId)
  }

  /** Removes the record at position `k`. */
  function Without(s: Store, k: nat): (r: Store)
    requires k < |s.records|
    ensures r.records == s.records[..k] + s.records[k + 1..] && r.nextId == s.nextId
  {
    Store(s.records[..k] + s.records[k + 1..], s.nextId)
  }

  lemma InsertPreservesValid(s: Store, board: nat, p: Principal, role: string)
    requires Valid(s)
    requires !Holds(s, board, p)
    requires Roles.IsValid(role)
    ensures Valid(Insert(s, board, p, role).0)
  {
    var (t, rec) := Insert(s, board, p, role);
    forall j, k | 0 <= j < k < |t.records|
      ensures !SameSlot(t.records[j], t.records[k])
    {
      if k == |s.records| {
        assert t.records[j] == s.records[j];
      }
    }
  }

  lemma WithRolePreservesValid(s: Store, k: nat, role: string)
    requires Valid(s)
    requires k < |s.records|
    requires Roles.IsValid(role)
    ensures Valid(WithRole(s, k, role))
  {
  }

  /** Where each remaining record of `Without(s, k)` was before. */
  function Origin(k: nat, j: nat): nat {
    if j < k then j else j + 1
  }

  lemma WithoutOrigin(s: Store, k: nat)
    requires k < |s.records|
    ensures |Without(s, k).records| == |s.records| - 1
    ensures forall j :: 0 <= j < |Without(s, k).records| ==>
      Origin(k, j) < |s.records| && Without(s, k).records[j] == s.records[Origin(k, j)]
  {
  }

  lemma WithoutPreservesValid(s: Store, k: nat)
    requires Valid(s)
    requires k < |s.records|
    ensures Valid(Without(s, k))
  {
    var t := Without(s, k);
    WithoutOrigin(s, k);
    forall i, j | 0 <= i < j < |t.records|
      ensures t.records[i].id < t.records[j].id && !SameSlot(t.records[i], t.records[j])
    {
      assert Origin(k, i) < Origin(k, j);
    }
  }

  lemma WithoutDropsId(s: Store, k: nat, p: Permission)
    requires Valid(s)
    requires k < |s.records|
    requires p in Without(s, k).records
    ensures p in s.records && p.id != s.records[k].id
  {
    var t := Without(s, k);
    WithoutOrigin(s, k);
    var j :| 0 <= j < |t.records| && t.records[j] == p;
    assert Origin(k, j) != k;
  }

  lemma WithoutKeepsOthers(s: Store, k: nat, p: Permission)
    requires k < |s.records|
    requires p in s.records && p.id != s.records[k].id
    ensures p in Without(s, k).records
  {
    var t := Without(s, k);
    var j :| 0 <= j < |s.records| && s.records[j] == p;
    if j < k {
      assert t.records[j] == p;
    } else {
      assert t.records[j - 1] == p;
    }
  }

  /** In a valid store removing the record at `k` removes exactly the
      records with its id: that one record, and nothing else. */
  lemma WithoutRemovesExactly(s: Store, k: nat)
    requires Valid(s)
    requires k < |s.records|
    ensures forall p :: p in Without(s, k).records <==> p in s.records && p.id != s.records[k].id
  {
    forall p
      ensures p in Without(s, k).records <==> p in s.records && p.id != s.records[k].id
    {
      if p in Without(s, k).records {
        WithoutDropsId(s, k, p);
      }
      if p in s.records && p.id != s.records[k].id {
        WithoutKeepsOthers(s, k, p);
      }
    }
  }

  /** In a valid store there is at most one record per board and principal. */
  lemma AtMostOnePerPrincipal(s: Store, j: nat, k: nat)
    requires Valid(s)
    requires j < |s.records| && k < |s.records|
    requires SameSlot(s.records[j], s.records[k])
    ensures j == k
  {
  }
}

=== FILE: permissions_controller.dfy ===
/** The board permission API: list, show, search, create, update and
    destroy, each requested by an explicit actor on one board. Only a user
    who holds ADMIN on the board may use any of them; everyone else is told
    "not found". An administrator may not change or remove their own
    record. */
module PermissionsController {
  import opened Results
  import opened Text
  import opened Principals
  import opened PermissionStore
  import Roles

  /** Who sends a request: nobody signed in, or a user by id. */
  datatype Actor = Anonymous | SignedIn(userId: nat)

  /** A field-scoped validation failure (`{errors: {field: [code]}}`). */
  datatype FieldError =
    | PrincipalRequired   // principal_id: required
    | PrincipalTaken      // principal_id: already_taken
    | RoleInvalid         // role: invalid_role

  datatype Error =
    | NotFound
    | Invalid(fields: seq<FieldError>)
    | CannotEditOwnPermission
    | CannotDeleteOwnPermission

  /** The record is the actor's own (a user record for the signed-in user). */
  predicate IsOwn(rec: Permission, actor: Actor) {
    actor.SignedIn? && rec.principal == Principal(UserKind, actor.userId)
  }

  /** The actor holds a role that reads as ADMIN on the board through a
      record of their own. */
  predicate IsAdmin(s: Store, board: nat, actor: Actor) {
    exists k :: 0 <= k < |s.records| && s.records[k].board == board && IsOwn(s.records[k], actor)
      && Roles.Parse(s.records[k].role) == Some(Roles.Admin)
  }

  // ---------------------------------------------------------------------
  // index and show
  // ---------------------------------------------------------------------

  /** All permissions of the board, in creation order. */
  function Index(s: Store, board: nat, actor: Actor): (r: Result<seq<Permission>, Error>)
    ensures !IsAdmin(s, board, actor) ==> r == Err(NotFound)
    ensures IsAdmin(s, board, actor) ==> r.Ok? && forall p :: p in r.value <==> p in s.records && p.board == board
    ensures r.Ok? && Valid(s) ==> IdsIncreasing(r.value)
  {
    if !IsAdmin(s, board, actor) then Err(NotFound) else Ok(OnBoard(s.records, board))
  }

  /** One permission of the board, by id. */
  function Show(s: Store, board: nat, actor: Actor, id: nat): (r: Result<Permission, Error>)
    ensures r.Err? ==> r.error == NotFound
    ensures r.Ok? <==> (IsAdmin(s, board, actor)
      && exists k :: 0 <= k < |s.records| && s.records[k].id == id && s.records[k].board == board)
    ensures r.Ok? ==> r.value in s.records && r.value.id == id && r.value.board == board
  {
    if !IsAdmin(s, board, actor) then Err(NotFound)
    else match Find(s.records, board, id)
      case None => Err(NotFound)
      case Some(k) => Ok(s.records[k])
  }

  // ---------------------------------------------------------------------
  // search
  // ---------------------------------------------------------------------

  /** A principal that may still be offered for the board: it holds no
      record there yet and its name contains the query, ignoring case. */
  predicate IsCandidate(s: Store, board: nat, query: string, a: Account) {
    !Holds(s, board, a.principal) && ContainsIgnoringCase(a.name, query)
  }

  function Candidates(s: Store, board: nat, query: string, dir: seq<Account>): (r: seq<Account>)
    ensures forall a :: a in r <==> a in dir && IsCandidate(s, board, query, a)
    decreases |dir|
  {
    if dir == [] then []
    else (if IsCandidate(s, board, query, dir[0]) then [dir[0]] else []) + Candidates(s, board, query, dir[1..])
  }

  /** Each candidate is offered as many times as it occurs in the directory,
      and nothing else is offered. */
  lemma {:induction false} CandidatesCount(s: Store, board: nat, query: string, dir: seq<Account>)
    ensures forall a ::
      multiset(Candidates(s, board, query, dir))[a] == if IsCandidate(s, board, query, a) then multiset(dir)[a] else 0
    decreases |dir|
  {
    if dir != [] {
      CandidatesCount(s, board, query, dir[1..]);
      assert dir == [dir[0]] + dir[1..];
    }
  }

  /** The principals of the directory that could be granted a role on the
      board, filtered by the query. */
  function Search(s: Store, dir: seq<Account>, board: nat, actor: Actor, query: string): (r: Result<seq<Account>, Error>)
    ensures !IsAdmin(s, board, actor) ==> r == Err(NotFound)
    ensures IsAdmin(s, board, actor) ==> r.Ok? && forall a :: a in r.value <==>
      a in dir && !Holds(s, board, a.principal) && ContainsIgnoringCase(a.name, query)
  {
    if !IsAdmin(s, board, actor) then Err(NotFound) else Ok(Candidates(s, board, query, dir))
  }

  /** An administrator's search lists each offered account exactly as often
      as it occurs in the directory. */
  lemma SearchCount(s: Store, dir: seq<Account>, board: nat, actor: Actor, query: string)
    requires IsAdmin(s, board, actor)
    ensures forall a ::
      multiset(Search(s, dir, board, actor, query).value)[a] ==
        if !Holds(s, board, a.principal) && ContainsIgnoringCase(a.name, query) then multiset(dir)[a] else 0
  {
    CandidatesCount(s, board, query, dir);
  }

  /** With an empty query every principal without a record is offered. */
  lemma SearchWithEmptyQuery(s: Store, dir: seq<Account>, board: nat, actor: Actor)
    requires IsAdmin(s, board, actor)
    ensures forall a :: a in Search(s, dir, board, actor, "").value <==> a in dir && !Holds(s, board, a.principal)
  {
    forall a: Account
      ensures ContainsIgnoringCase(a.name, "")
    {
      EmptyIsContained(a.name);
    }
  }

  // ---------------------------------------------------------------------
  // create
  // ---------------------------------------------------------------------

  /** Validation of the principal: it must resolve, and must not hold a
      record on the board yet. */
  function PrincipalErrors(s: Store, board: nat, p: Option<Principal>): seq<FieldError> {
    match p
    case None => [PrincipalRequired]
    case Some(q) => if Holds(s, board, q) then [PrincipalTaken] else []
  }

  /** Validation of the role text. */
  function RoleErrors(role: string): seq<FieldError> {
    if Roles.IsValid(role) then [] else [RoleInvalid]
  }

  /** Grants `role` on the board to the referenced principal. All
      validation failures are reported together and nothing is written. */
  function Create(s: Store, dir: seq<Account>, board: nat, actor: Actor, ref: Option<Reference>, role: string)
    : (r: Result<(Store, Permission), Error>)
    ensures !IsAdmin(s, board, actor) ==> r == Err(NotFound)
    ensures r.Ok? <==> (IsAdmin(s, board, actor) && Resolve(dir, ref).Some?
      && !Holds(s, board, Resolve(dir, ref).value) && Roles.IsValid(role))
    ensures r.Ok? ==> (r.value.0.records == s.records + [r.value.1]
      && r.value.1.board == board && r.value.1.principal == Resolve(dir, ref).value && r.value.1.role == role)
    ensures r.Err? && IsAdmin(s, board, actor) ==> (r.error.Invalid?
      && (PrincipalRequired in r.error.fields <==> Resolve(dir, ref).None?)
      && (PrincipalTaken in r.error.fields <==> Resolve(dir, ref).Some? && Holds(s, board, Resolve(dir, ref).value))
      && (RoleInvalid in r.error.fields <==> !Roles.IsValid(role)))
  {
    if !IsAdmin(s, board, actor) then Err(NotFound)
    else
      var p := Resolve(dir, ref);
      var errors := PrincipalErrors(s, board, p) + RoleErrors(role);
      if errors != [] then Err(Invalid(errors))
      else Ok(Insert(s, board, p.value, role))
  }

  // ---------------------------------------------------------------------
  // update and destroy
  // ---------------------------------------------------------------------

  /** Changes the role of a permission of the board. */
  function Update(s: Store, board: nat, actor: Actor, id: nat, role: string): (r: Result<(Store, Permission), Error>)
    ensures !IsAdmin(s, board, actor) ==> r == Err(NotFound)
    ensures Find(s.records, board, id).None? ==> r == Err(NotFound)
    ensures r.Err? && IsAdmin(s, board, actor) && Find(s.records, board, id).Some? ==>
      var rec := s.records[Find(s.records, board, id).value];
      if IsOwn(rec, actor) then r.error == CannotEditOwnPermission
      else r.error == Invalid([RoleInvalid]) && !Roles.IsValid(role)
    ensures r.Ok? ==> (IsAdmin(s, board, actor) && Roles.IsValid(role) && !IsOwn(r.value.1, actor)
      && r.value.1.id == id && r.value.1.board == board && r.value.1.role == role)
    ensures r.Ok? ==> (r.value.1 in r.value.0.records
      && r.value.1.principal == s.records[Find(s.records, board, id).value].principal)
  {
    if !IsAdmin(s, board, actor) then Err(NotFound)
    else match Find(s.records, board, id)
      case None => Err(NotFound)
      case Some(k) =>
        if IsOwn(s.records[k], actor) then Err(CannotEditOwnPermission)
        else if !Roles.IsValid(role) then Err(Invalid([RoleInvalid]))
        else var t := WithRole(s, k, role); Ok((t, t.records[k]))
  }

  /** Removes a permission of the board. */
  function Destroy(s: Store, board: nat, actor: Actor, id: nat): (r: Result<Store, Error>)
    ensures !IsAdmin(s, board, actor) ==> r == Err(NotFound)
    ensures Find(s.records, board, id).None? ==> r == Err(NotFound)
    ensures IsAdmin(s, board, actor) && Find(s.records, board, id).Some? ==>
      (r.Err? <==> IsOwn(s.records[Find(s.records, board, id).value], actor))
      && (r.Err? ==> r.error == CannotDeleteOwnPermission)
    ensures r.Ok? ==> IsAdmin(s, board, actor) && |r.value.records| == |s.records| - 1
  {
    if !IsAdmin(s, board, actor) then Err(NotFound)
    else match Find(s.records, board, id)
      case None => Err(NotFound)
      case Some(k) =>
        if IsOwn(s.records[k], actor) then Err(CannotDeleteOwnPermission)
        else Ok(Without(s, k))
  }

  /** In a valid store a successful update changes the role of the record
      with that id and nothing else. */
  lemma UpdateChangesOnlyThatRole(s: Store, board: nat, actor: Actor, id: nat, role: string)
    requires Valid(s)
    requires Update(s, board, actor, id, role).Ok?
    ensures var t := Update(s, board, actor, id, role).value.0;
      && t.nextId == s.nextId
      && |t.records| == |s.records|
      && forall j :: 0 <= j < |s.records| ==>
           t.records[j] == if s.records[j].id == id then s.records[j].(role := role) else s.records[j]
  {
    var k := Find(s.records, board, id).value;
    forall j | 0 <= j < |s.records| && j != k
      ensures s.records[j].id != id
    {
    }
  }

  /** In a valid store a successful destroy removes the record with that id
      and keeps every other record. */
  lemma DestroyRemovesExactly(s: Store, board: nat, actor: Actor, id: nat)
    requires Valid(s)
    requires Destroy(s, board, actor, id).Ok?
    ensures forall p :: p in Destroy(s, board, actor, id).value.records <==> p in s.records && p.id != id
  {
    WithoutRemovesExactly(s, Find(s.records, board, id).value);
  }

  // ---------------------------------------------------------------------
  // the controller as a state machine
  // ---------------------------------------------------------------------

  datatype Request =
    | ListPermissions
    | ShowPermission(id: nat)
    | SearchPrincipals(query: string)
    | CreatePermission(principal: Option<Reference>, role: string)
    | UpdatePermission(id: nat, role: string)
    | DestroyPermission(id: nat)

  datatype Reply =
    | Listed(permissions: seq<Permission>)
    | Shown(permission: Permission)
    | Found(accounts: seq<Account>)
    | Created(permission: Permission)
    | Updated(permission: Permission)
    | Destroyed
    | Failed(error: Error)

  /** One request on one board: the store afterwards and the reply. */
  function Handle(s: Store, dir: seq<Account>, board: nat, actor: Actor, req: Request): (r: (Store, Reply))
    ensures r.1.Failed? ==> r.0 == s
    ensures req.ListPermissions? || req.ShowPermission? || req.SearchPrincipals? ==> r.0 == s
    ensures !IsAdmin(s, board, actor) ==> r == (s, Failed(NotFound))
  {
    match req
    case ListPermissions =>
      (match Index(s, board, actor) case Ok(ps) => (s, Listed(ps)) case Err(e) => (s, Failed(e)))
    case ShowPermission(id) =>
      (match Show(s, board, actor, id) case Ok(p) => (s, Shown(p)) case Err(e) => (s, Failed(e)))
    case SearchPrincipals(q) =>
      (match Search(s, dir, board, actor, q) case Ok(found) => (s, Found(found)) case Err(e) => (s, Failed(e)))
    case CreatePermission(ref, role) =>
      (match Create(s, dir, board, actor, ref, role) case Ok((t, p)) => (t, Created(p)) case Err(e) => (s, Failed(e)))
    case UpdatePermission(id, role) =>
      (match Update(s, board, actor, id, role) case Ok((t, p)) => (t, Updated(p)) case Err(e) => (s, Failed(e)))
    case DestroyPermission(id) =>
      (match Destroy(s, board, actor, id) case Ok(t) => (t, Destroyed) case Err(e) => (s, Failed(e)))
  }

  /** Every request keeps the store's invariant: in particular no principal
      ever gets a second record on a board. */
  lemma HandlePreservesValid(s: Store, dir: seq<Account>, board: nat, actor: Actor, req: Request)
    requires Valid(s)
    ensures Valid(Handle(s, dir, board, actor, req).0)
  {
    match req
    case CreatePermission(ref, role) =>
      if Create(s, dir, board, actor, ref, role).Ok? {
        InsertPreservesValid(s, board, Resolve(dir, ref).value, role);
      }
    case UpdatePermission(id, role) =>
      if Update(s, board, actor, id, role).Ok? {
        WithRolePreservesValid(s, Find(s.records, board, id).value, role);
      }
    case DestroyPermission(id) =>
      if Destroy(s, board, actor, id).Ok? {
        WithoutPreservesValid(s, Find(s.records, board, id).value);
      }
    case _ =>
  }

  /** In a valid store a successful create adds exactly one record, whose
      id no earlier record carries. */
  lemma CreateAddsOneFreshRecord(s: Store, dir: seq<Account>, board: nat, actor: Actor, ref: Option<Reference>, role: string)
    requires Valid(s)
    requires Create(s, dir, board, actor, ref, role).Ok?
    ensures var (t, p) := Create(s, dir, board, actor, ref, role).value;
      && |t.records| == |s.records| + 1
      && t.records[|s.records|] == p
      && forall q :: q in s.records ==> q.id < p.id
  {
  }

  /** No request by an actor removes or changes a record of the actor's
      own, on any board. */
  lemma OwnRecordsUntouched(s: Store, dir: seq<Account>, board: nat, actor: Actor, req: Request, w: nat)
    requires w < |s.records| && IsOwn(s.records[w], actor)
    ensures s.records[w] in Handle(s, dir, board, actor, req).0.records
  {
    var t := Handle(s, dir, board, actor, req).0;
    match req
    case CreatePermission(ref, role) =>
      if Create(s, dir, board, actor, ref, role).Ok? {
        assert t.records[w] == s.records[w];
      }
    case UpdatePermission(id, role) =>
      if Update(s, board, actor, id, role).Ok? {
        assert t.records[w] == s.records[w];
      }
    case DestroyPermission(id) =>
      if Destroy(s, board, actor, id).Ok? {
        var k := Find(s.records, board, id).value;
        assert w != k;
        if w < k {
          assert t.records[w] == s.records[w];
        } else {
          assert t.records[w - 1] == s.records[w];
        }
      }
    case _ =>
  }

  /** An administrator's own requests never take away any of their
      administrator rights, on this board or another: the self-guard keeps
      their own records out of reach. */
  lemma AdminKeepsOwnRights(s: Store, dir: seq<Account>, board: nat, actor: Actor, req: Request, b: nat)
    requires IsAdmin(s, b, actor)
    ensures IsAdmin(Handle(s, dir, board, actor, req).0, b, actor)
  {
    var w :| 0 <= w < |s.records| && s.records[w].board == b && IsOwn(s.records[w], actor)
      && Roles.Parse(s.records[w].role) == Some(Roles.Admin);
    OwnRecordsUntouched(s, dir, board, actor, req, w);
  }

  /** A request together with the board it is made on and who makes it. */
  datatype Step = Step(board: nat, actor: Actor, request: Request)

  /** The store after handling the steps in order. */
  function Run(s: Store, dir: seq<Account>, steps: seq<Step>): Store
    decreases |steps|
  {
    if steps == [] then s
    else Run(Handle(s, dir, steps[0].board, steps[0].actor, steps[0].request).0, dir, steps[1..])
  }

  lemma {:induction false} RunPreservesValid(s: Store, dir: seq<Account>, steps: seq<Step>)
    requires Valid(s)
    ensures Valid(Run(s, dir, steps))
    decreases |steps|
  {
    if steps != [] {
      HandlePreservesValid(s, dir, steps[0].board, steps[0].actor, steps[0].request);
      RunPreservesValid(Handle(s, dir, steps[0].board, steps[0].actor, steps[0].request).0, dir, steps[1..]);
    }
  }

  /** Whatever sequence of requests is handled from the empty store, no
      board ever has two records for the same principal, and every stored
      role text reads as a role. */
  lemma ReachableStoresAreValid(dir: seq<Account>, steps: seq<Step>)
    ensures var s := Run(Empty, dir, steps);
      && (forall j, k :: 0 <= j < k < |s.records| ==> !SameSlot(s.records[j], s.records[k]))
      && (forall k :: 0 <= k < |s.records| ==> Roles.IsValid(s.records[k].role))
  {
    RunPreservesValid(Empty, dir, steps);
  }
}

=== FILE: principals.dfy ===
/** Principals (users and groups) that can hold a role on a board, and how
    a request's `{type, id}` reference is resolved to one. */
module Principals {
  import opened Results

  datatype Kind = UserKind | GroupKind

  datatype Principal = Principal(kind: Kind, id: nat)

  /** A principal known to the host, with its display name. */
  datatype Account = Account(principal: Principal, name: string)

  /** The `principal` request parameter: a type tag and an id. */
  datatype Reference = Reference(kind: string, id: nat)

  /** The type tag a principal of this kind carries in requests and replies. */
  function KindTag(k: Kind): string {
    match k
    case UserKind => "user"
    case GroupKind => "group"
  }

  /** The kind a type tag names; any other tag (such as "project") names none. */
  function KindOf(tag: string): (k: Option<Kind>)
    ensures k.Some? ==> KindTag(k.value) == tag
    ensures k.None? ==> forall kind: Kind :: KindTag(kind) != tag
  {
    if tag == "user" then Some(UserKind)
    else if tag == "group" then Some(GroupKind)
    else None
  }

  predicate Known(dir: seq<Account>, p: Principal) {
    exists k :: 0 <= k < |dir| && dir[k].principal == p
  }

  /** Resolves the reference against the directory of known principals; a
      missing reference, an unsupported type tag or an unknown id resolve
      to nothing. */
  function Resolve(dir: seq<Account>, ref: Option<Reference>): Option<Principal> {
    match ref
    case None => None
    case Some(Reference(tag, id)) =>
      match KindOf(tag)
      case None => None
      case Some(kind) => if Known(dir, Principal(kind, id)) then Some(Principal(kind, id)) else None
  }

  /** A reference resolves to `p` exactly when it carries `p`'s type tag and
      id and `p` is known. */
  lemma ResolveIff(dir: seq<Account>, ref: Option<Reference>, p: Principal)
    ensures Resolve(dir, ref) == Some(p) <==> ref == Some(Reference(KindTag(p.kind), p.id)) && Known(dir, p)
  {
    if ref == Some(Reference(KindTag(p.kind), p.id)) {
      assert KindOf(KindTag(p.kind)) == Some(p.kind) by {
        match p.kind
        case UserKind =>
        case GroupKind =>
      }
    }
  }

  /** A reference whose type is neither "user" nor "group" never resolves. */
  lemma UnsupportedTypeUnresolved(dir: seq<Account>, tag: string, id: nat)
    requires tag != "user" && tag != "group"
    ensures Resolve(dir, Some(Reference(tag, id))) == None
  {
  }
}

=== FILE: results.dfy ===
/** Failure-carrying values shared by the issue helpers and the permission controller. */
module Results {

  /** A value that may be absent; Ruby's `nil` is `None`. */
  datatype Option<+T> = None | Some(value: T)

  /** The outcome of an operation that can fail with a tagged error. */
  datatype Result<+T, +E> = Ok(value: T) | Err(error: E)
}

=== FILE: roles.dfy ===
/** The roles a principal can hold on a board. Role input is accepted in
    any letter case; the stored text is kept as it was given. */
module Roles {
  import opened Results
  import opened Text

  datatype Role = Read | Edit | Admin

  /** The canonical token of a role, as the role constants spell it. */
  function Token(r: Role): string {
    match r
    case Read => "READ"
    case Edit => "EDIT"
    case Admin => "ADMIN"
  }

  /** Reads a role from request text, ignoring (ASCII) letter case; any
      other text is not a role. */
  function Parse(s: string): (r: Option<Role>)
    ensures r.Some? ==> Upper(s) == Token(r.value)
    ensures r.None? ==> forall role: Role :: Upper(s) != Token(role)
  {
    var u := Upper(s);
    if u == "READ" then Some(Read)
    else if u == "EDIT" then Some(Edit)
    else if u == "ADMIN" then Some(Admin)
    else None
  }

  predicate IsValid(s: string) {
    Parse(s).Some?
  }

  /** Every role's token, and the same token in lower case, reads back as
      that role. */
  lemma ParseToken(r: Role)
    ensures Parse(Token(r)) == Some(r)
    ensures Parse(Lower(Token(r))) == Some(r)
  {
    match r
    case Read =>
      assert Upper(Token(r)) == "READ";
      assert Upper(Lower(Token(r))) == "READ";
    case Edit =>
      assert Upper(Token(r)) == "EDIT";
      assert Upper(Lower(Token(r))) == "EDIT";
    case Admin =>
      assert Upper(Token(r)) == "ADMIN";
      assert Upper(Lower(Token(r))) == "ADMIN";
  }

  /** Texts that differ only in letter case are the same role (or both not a role). */
  lemma ParseIgnoresCase(s: string, t: string)
    requires Upper(s) == Upper(t)
    ensures Parse(s) == Parse(t)
  {
  }
}

=== FILE: scenarios.dfy ===
/** The behaviour the controller's examples describe, on their fixture: a
    board on which user 2 is ADMIN and user 3 has EDIT, and a directory of
    seven users. */
module Scenarios {
  import opened Results
  import opened Principals
  import opened PermissionStore
  import opened PermissionsController
  import opened Text
  import Roles

  const Board: nat := 1

  function User(id: nat): Principal {
    Principal(UserKind, id)
  }

  /** The board's administrator, and a user with a lesser role. */
  const AUser: Actor := SignedIn(2)
  const AnotherUser: Actor := SignedIn(3)

  const AdminRecord: Permission := Permission(1, Board, User(2), "ADMIN")
  const EditRecord: Permission := Permission(2, Board, User(3), "EDIT")

  const Fixture: Store := Store([AdminRecord, EditRecord], 3)

  const Directory: seq<Account> := [
    Account(User(1), "Redmine Admin"),
    Account(User(2), "John Smith"),
    Account(User(3), "Dave Lopper"),
    Account(User(4), "Robert Hill"),
    Account(User(5), "Dave2 Lopper2"),
    Account(User(6), "Anonymous"),
    Account(User(7), "Some One")
  ]

  /** Only user 2 administers the board. */
  lemma OnlyUserTwoIsAdmin()
    ensures IsAdmin(Fixture, Board, AUser)
    ensures !IsAdmin(Fixture, Board, Anonymous)
    ensures !IsAdmin(Fixture, Board, AnotherUser)
  {
    Roles.ParseToken(Roles.Admin);
    assert Fixture.records[0] == AdminRecord;
  }

  /** Anonymous and non-administrative requests are all answered "not found"
      and change nothing. */
  lemma OutsidersAreTurnedAway(req: Request)
    ensures Handle(Fixture, Directory, Board, Anonymous, req) == (Fixture, Failed(NotFound))
    ensures Handle(Fixture, Directory, Board, AnotherUser, req) == (Fixture, Failed(NotFound))
  {
    OnlyUserTwoIsAdmin();
  }

  lemma IndexListsBothRecords()
    ensures Index(Fixture, Board, AUser) == Ok([AdminRecord, EditRecord])
  {
    OnlyUserTwoIsAdmin();
    assert Fixture.records[1..] == [EditRecord];
    assert [EditRecord][1..] == [];
    assert OnBoard([EditRecord], Board) == [EditRecord];
    assert OnBoard(Fixture.records, Board) == [AdminRecord, EditRecord];
  }

  lemma ShowReturnsTheRecord()
    ensures Show(Fixture, Board, AUser, 1) == Ok(AdminRecord)
  {
    OnlyUserTwoIsAdmin();
  }

  /** Granting READ to user 1 appends one record with the next id. */
  lemma CreateGrantsRead()
    ensures Create(Fixture, Directory, Board, AUser, Some(Reference("user", 1)), "READ")
         == Ok((Store([AdminRecord, EditRecord, Permission(3, Board, User(1), "READ")], 4),
                Permission(3, Board, User(1), "READ")))
  {
    OnlyUserTwoIsAdmin();
    Roles.ParseToken(Roles.Read);
    assert Directory[0].principal == User(1);
    assert Known(Directory, User(1));
    assert !Holds(Fixture, Board, User(1)) by {
      assert forall k :: 0 <= k < 2 ==> Fixture.records[k].principal != User(1);
    }
    assert Resolve(Directory, Some(Reference("user", 1))) == Some(User(1));
    assert Roles.IsValid("READ");
    assert PrincipalErrors(Fixture, Board, Some(User(1))) + RoleErrors("READ") == [];
    assert Fixture.records + [Permission(3, Board, User(1), "READ")]
        == [AdminRecord, EditRecord, Permission(3, Board, User(1), "READ")];
  }

  /** A second record for user 1 is refused as already taken. */
  lemma CreateDuplicateIsTaken()
    ensures var s := Store([AdminRecord, EditRecord, Permission(3, Board, User(1), "EDIT")], 4);
      Create(s, Directory, Board, AUser, Some(Reference("user", 1)), "READ") == Err(Invalid([PrincipalTaken]))
  {
    var s := Store([AdminRecord, EditRecord, Permission(3, Board, User(1), "EDIT")], 4);
    Roles.ParseToken(Roles.Admin);
    Roles.ParseToken(Roles.Read);
    assert s.records[0] == AdminRecord;
    assert s.records[2].principal == User(1);
    assert Directory[0].principal == User(1);
    assert Known(Directory, User(1));
    assert IsAdmin(s, Board, AUser);
    assert Holds(s, Board, User(1));
    assert Resolve(Directory, Some(Reference("user", 1))) == Some(User(1));
    assert PrincipalErrors(s, Board, Some(User(1))) + RoleErrors("READ") == [PrincipalTaken];
  }

  /** A reference of type "project" names no principal. */
  lemma CreateWithProjectIsRequired()
    ensures Create(Fixture, Directory, Board, AUser, Some(Reference("project", 57664)), "READ")
         == Err(Invalid([PrincipalRequired]))
  {
    OnlyUserTwoIsAdmin();
    Roles.ParseToken(Roles.Read);
    assert KindOf("project") == None;
    assert Resolve(Directory, Some(Reference("project", 57664))) == None;
    assert PrincipalErrors(Fixture, Board, None) + RoleErrors("READ") == [PrincipalRequired];
  }

  /** Record 2 of the board sits second in the store. */
  lemma SecondRecordFound()
    ensures Find(Fixture.records, Board, 2) == Some(1)
  {
    assert Fixture.records[1..] == [EditRecord];
  }

  lemma UpdateWithUnknownRoleIsInvalid()
    ensures Update(Fixture, Board, AUser, 2, "MASTER_OF_DESASTER") == Err(Invalid([RoleInvalid]))
  {
    OnlyUserTwoIsAdmin();
    SecondRecordFound();
    assert |Upper("MASTER_OF_DESASTER")| == 18;
  }

  /** A lower-case role is accepted and stored as given. */
  lemma UpdateKeepsLowerCaseRole()
    ensures Update(Fixture, Board, AUser, 2, "read")
         == Ok((Store([AdminRecord, Permission(2, Board, User(3), "read")], 3), Permission(2, Board, User(3), "read")))
  {
    OnlyUserTwoIsAdmin();
    SecondRecordFound();
    assert Upper("read") == "READ";
    assert Roles.IsValid("read");
    assert !IsOwn(EditRecord, AUser);
    assert Fixture.records[1 := EditRecord.(role := "read")] == [AdminRecord, Permission(2, Board, User(3), "read")];
  }

  lemma UpdateOwnIsRefused()
    ensures Update(Fixture, Board, AUser, 1, "read") == Err(CannotEditOwnPermission)
  {
    OnlyUserTwoIsAdmin();
  }

  lemma DestroyRemovesTheRecord()
    ensures Destroy(Fixture, Board, AUser, 2) == Ok(Store([AdminRecord], 3))
  {
    OnlyUserTwoIsAdmin();
    SecondRecordFound();
    assert Fixture.records[..1] + Fixture.records[2..] == [AdminRecord];
  }

  lemma DestroyOwnIsRefused()
    ensures Destroy(Fixture, Board, AUser, 1) == Err(CannotDeleteOwnPermission)
  {
    OnlyUserTwoIsAdmin();
  }

  /** A name without the letter p, in either case, does not contain "lop". */
  lemma NoLopWithoutP(name: string)
    requires forall k :: 0 <= k < |name| ==> name[k] != 'p' && name[k] != 'P'
    ensures !ContainsIgnoringCase(name, "lop")
  {
    assert Lower("lop")[2] == 'p';
    assert 'p' !in Lower(name);
    if ContainsIgnoringCase(name, "lop") {
      OccursKeepsChars(Lower("lop"), Lower(name), 2);
    }
  }

  /** Users 2 and 3 hold a role on the board, nobody else does. */
  lemma HeldOnBoard(p: Principal)
    ensures Holds(Fixture, Board, p) <==> p == User(2) || p == User(3)
  {
    assert Fixture.records[0].principal == User(2);
    assert Fixture.records[1].principal == User(3);
  }

  lemma LopInDaveTwo()
    ensures ContainsIgnoringCase("Dave2 Lopper2", "lop")
  {
    var s := Lower("Dave2 Lopper2");
    assert Lower("lop") == "lop";
    assert s[6] == 'l' && s[7] == 'o' && s[8] == 'p';
    assert s[6..9] == "lop";
    assert OccursAt("lop", s, 6);
    OccursIff("lop", s);
  }

  /** The names other than Dave2 Lopper2's have no letter p. */
  lemma OtherNamesLackP()
    ensures forall k :: 0 <= k < |"Redmine Admin"| ==> "Redmine Admin"[k] != 'p' && "Redmine Admin"[k] != 'P'
    ensures forall k :: 0 <= k < |"Robert Hill"| ==> "Robert Hill"[k] != 'p' && "Robert Hill"[k] != 'P'
    ensures forall k :: 0 <= k < |"Anonymous"| ==> "Anonymous"[k] != 'p' && "Anonymous"[k] != 'P'
    ensures forall k :: 0 <= k < |"Some One"| ==> "Some One"[k] != 'p' && "Some One"[k] != 'P'
  {
  }

  /** Searching for "lop" offers Dave2 Lopper2 only: Dave Lopper already
      holds a role on the board. */
  lemma SearchForLop()
    ensures var r := Search(Fixture, Directory, Board, AUser, "lop");
      r.Ok? && forall a :: a in r.value <==> a == Account(User(5), "Dave2 Lopper2")
  {
    OnlyUserTwoIsAdmin();
    LopInDaveTwo();
    OtherNamesLackP();
    NoLopWithoutP("Redmine Admin");
    NoLopWithoutP("Robert Hill");
    NoLopWithoutP("Anonymous");
    NoLopWithoutP("Some One");
    HeldOnBoard(User(2));
    HeldOnBoard(User(3));
    HeldOnBoard(User(5));
  }

  /** Without a query every user but the two who hold a role is offered. */
  lemma SearchWithoutQuery()
    ensures var r := Search(Fixture, Directory, Board, AUser, "");
      r.Ok? && forall a :: a in r.value <==> a in Directory && a.principal != User(2) && a.principal != User(3)
  {
    OnlyUserTwoIsAdmin();
    SearchWithEmptyQuery(Fixture, Directory, Board, AUser);
    forall p: Principal
      ensures Holds(Fixture, Board, p) <==> p == User(2) || p == User(3)
    {
      HeldOnBoard(p);
    }
  }
}

=== FILE: text.dfy ===
/** Character classes, ASCII case mapping and substring search on strings. */
module Text {

  /** The characters of the POSIX class [[:space:]] in the ASCII range:
      space, tab, line feed, vertical tab, form feed and carriage return. */
  predicate IsSpace(c: char) {
    c == ' ' || ('\t' <= c <= '\r')
  }

  /** Ruby's `blank?` on a string: empty, or whitespace only. */
  predicate IsBlank(s: string) {
    forall k :: 0 <= k < |s| ==> IsSpace(s[k])
  }

  function LowerChar(c: char): char {
    if 'A' <= c <= 'Z' then (c as int + 32) as char else c
  }

  function UpperChar(c: char): char {
    if 'a' <= c <= 'z' then (c as int - 32) as char else c
  }

  function Lower(s: string): string {
    seq(|s|, k requires 0 <= k < |s| => LowerChar(s[k]))
  }

  function Upper(s: string): string {
    seq(|s|, k requires 0 <= k < |s| => UpperChar(s[k]))
  }

  /** `q` occurs in `s` starting at position `k`. */
  predicate OccursAt(q: string, s: string, k: nat) {
    k + |q| <= |s| && s[k..k + |q|] == q
  }

  /** Substring search, scanning `s` from the left. */
  predicate Occurs(q: string, s: string)
    decreases |s|
  {
    if |q| > |s| then false
    else if s[..|q|] == q then true
    else Occurs(q, s[1..])
  }

  /** The scan finds `q` exactly when it occurs at some position of `s`. */
  lemma {:induction false} OccursIff(q: string, s: string)
    ensures Occurs(q, s) <==> exists k: nat :: OccursAt(q, s, k)
    decreases |s|
  {
    if |q| > |s| {
    } else if s[..|q|] == q {
      assert OccursAt(q, s, 0);
    } else {
      OccursIff(q, s[1..]);
      if Occurs(q, s[1..]) {
        var k: nat :| OccursAt(q, s[1..], k);
        assert s[k + 1..k + 1 + |q|] == s[1..][k..k + |q|];
        assert OccursAt(q, s, k + 1);
      } else {
        forall k: nat | OccursAt(q, s, k)
          ensures false
        {
          if k > 0 {
            assert s[1..][k - 1..k - 1 + |q|] == s[k..k + |q|];
            assert OccursAt(q, s[1..], k - 1);
          }
        }
      }
    }
  }

  /** Every character of an occurring query is a character of the text. */
  lemma OccursKeepsChars(q: string, s: string, i: nat)
    requires Occurs(q, s)
    requires i < |q|
    ensures q[i] in s
  {
    OccursIff(q, s);
    var k: nat :| OccursAt(q, s, k);
    assert s[k..k + |q|][i] == s[k + i];
  }

  /** Case-insensitive (ASCII) containment of `q` in `s`. */
  predicate ContainsIgnoringCase(s: string, q: string) {
    Occurs(Lower(q), Lower(s))
  }

  /** The empty query is contained in every string. */
  lemma EmptyIsContained(s: string)
    ensures ContainsIgnoringCase(s, "")
  {
    OccursIff(Lower(""), Lower(s));
    assert OccursAt(Lower(""), Lower(s), 0);
  }

  /** A non-empty run of non-whitespace characters. */
  predicate IsWord(w: string) {
    |w| > 0 && forall k :: 0 <= k < |w| ==> !IsSpace(w[k])
  }

  /** Each word preceded by exactly one space, as repeated `s << ' word'` builds it. */
  function SpaceJoin(ws: seq<string>): (s: string)
    ensures s == [] || s[0] == ' '
  {
    if ws == [] then "" else " " + ws[0] + SpaceJoin(ws[1..])
  }

  /** Length of the leading run of non-whitespace characters. */
  function WordLength(s: string): (n: nat)
    ensures n <= |s|
    ensures s != [] && !IsSpace(s[0]) ==> n > 0
    decreases |s|
  {
    if s == [] || IsSpace(s[0]) then 0 else 1 + WordLength(s[1..])
  }

  /** Whitespace-separated words with empty pieces dropped: Ruby's `split`
      without an argument, and how a class attribute is read as a list. */
  function Words(s: string): seq<string>
    decreases |s|
  {
    if s == [] then []
    else if IsSpace(s[0]) then Words(s[1..])
    else var n := WordLength(s); [s[..n]] + Words(s[n..])
  }

  lemma {:induction false} WordLengthOfWord(w: string, rest: string)
    requires IsWord(w)
    requires rest == [] || IsSpace(rest[0])
    ensures WordLength(w + rest) == |w|
    decreases |w|
  {
    assert (w + rest)[0] == w[0];
    assert (w + rest)[1..] == w[1..] + rest;
    if |w| > 1 {
      WordLengthOfWord(w[1..], rest);
    }
  }

  /** Reading a space-joined list of words back as a class list gives the list. */
  lemma {:induction false} WordsOfSpaceJoin(ws: seq<string>)
    requires forall k :: 0 <= k < |ws| ==> IsWord(ws[k])
    ensures Words(SpaceJoin(ws)) == ws
    decreases |ws|
  {
    if ws != [] {
      var w, rest := ws[0], SpaceJoin(ws[1..]);
      assert SpaceJoin(ws) == " " + (w + rest);
      assert (" " + (w + rest))[1..] == w + rest;
      WordLengthOfWord(w, rest);
      assert (w + rest)[..|w|] == w;
      assert (w + rest)[|w|..] == rest;
      WordsOfSpaceJoin(ws[1..]);
    }
  }
}
